=== FILE: README.md ===
# Currency quote viewer — a Dafny model

This project models the logic of the single React component `App` of a small
currency-quote viewer. The component receives a stream of quote tables from a
price feed and keeps the latest one. It lists the currency codes, filtered by a
search box and split into pages of ten. When the user clicks a currency, it
colours the bid and ask green or red depending on whether they moved since the
last click.

The model is functional. The component's state and the browser's
`localStorage` form one immutable `App.State`. Each feed message and each user
action is a pure transition, `App.Step`. Each step also applies the effect that
React runs after the render the change causes. `Session.Run` folds a sequence
of events, and the `Session` lemmas state what holds along every such sequence.

Modules:

- `Quotes`: price fields as JSON carries them (a number, a string or `null`),
  their `parseFloat` values (`Num`: a finite decimal, an infinity or NaN), the
  form a quote takes after a trip through `JSON.stringify` and `JSON.parse`,
  JavaScript's `<` on numbers, and the three-way comparison that gives the colour.
- `QuoteTable`: a decoded `prices` object. It holds the codes in `Object.keys`
  order and the quote under each code.
- `Snapshots`: `localStorage`. The sentinel key `"selectedPrice"` and the
  per-currency keys share one key space.
- `Browser`: ASCII lower-casing, `includes`, the search filter, the slicing of
  pages (`Array.prototype.slice`, negative bounds included), the page count, and
  the previous/next page arithmetic.
- `App`: the state, the handlers, the snapshot effect, the events the page can
  produce, and `Step`.
- `Session`: runs of events from the first render, with the invariants and the
  two-click properties.

Behaviour of the code worth knowing:

- The code clamps the page number only in the two buttons. When the filtered
  list shrinks, the page is left as it is, and a page past the last one is shown
  empty (`Browser.PageBeyondLastIsEmpty`).
- "next" with no pages at all sets the page to 0, and "next" from a page past
  the last one goes back to the last page; this is the only place the code
  clamps a page after the list shrinks (`Browser.NextPage`). "previous" from
  page 0 or below goes to page 1 (`Browser.PrevPage`).
- The per-currency snapshot keys share the key space with the sentinel. So a
  currency whose code is `selectedPrice` would move the comparison baseline on
  every feed message while it is selected (`Session.SentinelOverwrittenByFeed`).
  `Session.GlobalBaseline` therefore excludes that code.
- A quote is stored as JSON text. A numeric price too large for a double reads
  as an infinity but is written as `null`, so the stored copy compares as NaN
  (`Quotes.Reserialize`, `Quotes.OverflowedBidComparesAsNaN`).
- Property lookup (`pricesData[currency]`) is modelled as
  lookup in a map, so every statement below is about codes that are not
  inherited members of `Object.prototype` (see "Left out").
- A feed message that no longer quotes the selected currency makes the next
  render throw, which unmounts the component and closes the socket. Such a
  message is therefore not an event of a running page (`App.Enabled`,
  `App.MessageDroppingSelectionBreaksRender`), and every state of a run renders
  (`Session.AlwaysRenders`).

## Model

| member | source | states |
|---|---|---|
| Quotes.Reserialize | src/App.js:60 | a field read back from storage has the same `parseFloat` value exactly when it is not a numeric infinity, and it is never a non-finite number |
| Quotes.Value | src/App.js:65-68 | a numeric field parses to its own number; a string field, the form the feed sends prices in, parses to the value `parseFloat` gives for its text; a `null` field parses to NaN, which is neither below nor above any number |
| Quotes.Less | src/App.js:72-84 | JavaScript's `<` on numbers: on finite numbers it is the order of the reals; −∞ is below every finite number and +∞, +∞ is above every finite number and −∞, nothing is below −∞ or above +∞, and nothing is related to NaN |
| Quotes.LessIsStrictOrder | src/App.js:72-84 | apart from NaN, `<` is asymmetric and transitive, and any two different numbers are ordered one way or the other |
| Quotes.Css | src/App.js:137-138 | the colour is "green" exactly for the up signal, "red" exactly for the down signal, and the default `""` exactly for no movement |
| Quotes.ColorOfComparison | src/App.js:71-86 | the colour shown is "green" exactly when the current price is above the stored one, "red" exactly when below, and `""` otherwise |
| Quotes.CompareField | src/App.js:71-77 | green exactly when the current price is above the stored one, red exactly when below, plain exactly when the two are equal or either is NaN |
| Quotes.ComparePrices | src/App.js:64-88 | the bid signal is green/red exactly when the parsed current bid is above/below the parsed stored bid; the same holds for the ask, on its own |
| Quotes.CompareFieldSwap | src/App.js:72-76 | swapping current and stored prices swaps green and red and keeps plain |
| Quotes.CompareSameQuote | src/App.js:64-88 | a quote compared with itself, or with its own stored form, shows no movement on either side, NaN included |
| Quotes.OverflowedBidComparesAsNaN | src/App.js:60-76 | a numeric bid that overflowed to infinity, once stored, shows no movement against a finite bid, although the unstored quote would show red |
| Quotes.CompareSidesIndependent | src/App.js:64-88 | the bid signal depends only on the two bids, the ask signal only on the two asks |
| Snapshots.Read | src/App.js:54 | reading a key gives a quote exactly when the key is stored, and that quote is the stored one |
| Snapshots.Write | src/App.js:60 | a write adds its key and keeps every other key |
| Snapshots.RemoveSentinel | src/App.js:45 | removal drops the sentinel key and keeps every other key |
| Snapshots.ReadAfterWrite | src/App.js:60 | a written quote reads back in its stored form; every other key reads as before |
| Snapshots.ReadAfterRemove | src/App.js:44-46 | after the removal the sentinel reads as absent; every other key reads as before |
| Browser.Lower | src/App.js:98 | lower-casing keeps the length, maps each ASCII capital to its small letter, keeps every other character, and leaves no ASCII capital |
| Browser.Includes | src/App.js:98 | the empty term is always included, and no term longer than the code is |
| Browser.LowerIdempotent | src/App.js:98 | lower-casing twice is lower-casing once |
| Browser.IncludesIsSubstring | src/App.js:98 | `includes` holds exactly when the term occurs at some position of the code |
| Browser.IncludesEmpty | src/App.js:98 | the empty term occurs in every code |
| Browser.Filter | src/App.js:97-99 | the result is an order-preserving subsequence of the codes and holds exactly the codes whose lower-case form contains the lower-case term |
| Browser.FilterCounts | src/App.js:97-99 | each matching code is kept as often as it occurs, and every other code is dropped |
| Browser.FilterEmptyTerm | src/App.js:97-99 | an empty search term keeps the whole list unchanged |
| Browser.FilterIgnoresTermCase | src/App.js:98 | the result does not depend on the case of the term |
| Browser.LowerTermFindsUpperCode | src/App.js:98 | the term `usd` finds the code `USD/EUR` |
| Browser.TotalPages | src/App.js:103 | the page count is the least number of pages of ten that hold all codes |
| Browser.JsSlice | src/App.js:105 | the slice only holds elements of the list; for non-negative bounds it is the list between the bounds clamped to its length; an end of 0 gives nothing |
| Browser.Paginate | src/App.js:101-105 | page `p >= 1` is the list from `(p-1)*10` to `p*10` clamped to its length, at most ten codes, and only codes of the list; page 0 is empty; the page count is the ceiling of length/10 |
| Browser.PageBeyondLastIsEmpty | src/App.js:101-105 | a page number above the page count shows no codes, because nothing clamps it |
| Browser.FirstPagesArePrefix | src/App.js:101-105 | pages 1 to k together are the first 10k codes |
| Browser.PagesReassemble | src/App.js:101-105 | pages 1 to the page count together are the whole filtered list, in order |
| Browser.ItemOnItsPage | src/App.js:101-105 | the code at index i is on page i/10 + 1, which is within the page count, at row i mod 10 |
| Browser.PrevPage | src/App.js:142 | "previous" goes one page back from a page above 1 and to page 1 from any other page, so never below 1 |
| Browser.NextPage | src/App.js:144 | "next" goes one page on from a page below the page count, and to the page count from that page or any page past it; so it never yields a page above the page count, and with no pages it yields 0 |
| Browser.PrevNextInverse | src/App.js:142-144 | within the page range, "previous" undoes "next" and "next" undoes "previous" |
| Browser.DisabledExactlyWhenNoOp | src/App.js:142-144 | each button's `disabled` condition holds exactly when clicking it would leave the page unchanged |
| App.Startup | src/App.js:44-46 | the first render has an empty table, page 1, no selection, plain signals, and no sentinel whatever an earlier session stored; other keys are kept |
| App.OnMessage | src/App.js:23-27 | a decoded message replaces the whole table with its `prices`; a message that does not parse changes nothing; nothing else changes |
| App.Search | src/App.js:48-51 | a new term is stored and the page goes back to 1; nothing else changes |
| App.SelectCurrency | src/App.js:53-62 | the sentinel afterwards holds the stored form of the clicked currency's quote and the selection is that currency, whether or not a comparison ran; with a sentinel present the signals are the comparison with it, otherwise they are unchanged; no other key changes |
| App.SnapshotEffect | src/App.js:90-95 | with a selected currency in the table, its own key afterwards holds the stored form of its quote and every other key is unchanged; otherwise the store is untouched; nothing but the store changes |
| App.PageCountWithoutSearch | src/App.js:97-103 | with an empty search term the page count is the number of currencies in the table divided by ten, rounded up |
| App.MessageDroppingSelectionBreaksRender | src/App.js:134-138 | a message that no longer quotes the selected currency leaves a state whose render throws, and it is not an event of a running page |
| App.VisibleInTable | src/App.js:97-105 | every row shown is a currency of the table that matches the search term |
| App.EnabledIsDefined | src/App.js:123-126 | every row the page lets the user click names a currency of the table |
| App.Enabled | src/App.js:123-144 | a row click is possible only on a code of the table; a decoded message keeps the page running exactly when the state it leaves still renders; each page button is enabled exactly when clicking it would change the state; typing and undecodable messages are always possible |
| App.Step | src/App.js:23-144 | an undecodable message changes nothing; a decoded one replaces the table, refreshes the selected currency's key and keeps selection, signals, search term and page; a click selects the code, makes the stored form of its quote the sentinel and keeps table, term and page; a click that changes the selection also stores the quote under the code's own key, a repeat click touches no key but the sentinel; typing and the page buttons leave the store, table, selection and signals alone |
| App.Prev | src/App.js:142 | "previous" leaves a page of at least 1 and changes nothing else |
| App.Next | src/App.js:144 | "next" leaves a page no higher than the page count, never negative from a non-negative page, and changes nothing else |
| Session.AlwaysRenders | src/App.js:134-138 | along every run the selected currency, if any, is quoted in the table, so the detail panel can read its bid and ask |
| Session.PageNeverNegative | src/App.js:142-144 | along any run the page number stays at 0 or above |
| Session.TableKeptWithoutFeed | src/App.js:23-27 | without a decoded message the table does not change |
| Session.LastFeedWins | src/App.js:23-27 | after any run the table equals exactly the `prices` of the last decoded message; no key of an earlier message survives unless resent |
| Session.EffectIdleWhenCurrent | src/App.js:90-95 | when the selected currency's key already holds its quote, the effect changes nothing |
| Session.StepKeepsSnapshotCurrent | src/App.js:90-95 | every step keeps the selected currency's key holding its current quote |
| Session.SnapshotAlwaysCurrent | src/App.js:90-95 | along any run, the selected currency's key holds its current quote |
| Session.FreshUntilClick | src/App.js:44-46 | until the first click there is no selection, no sentinel and no colour |
| Session.SentinelPersists | src/App.js:60 | once written, the sentinel stays for the rest of the session |
| Session.SentinelIffClicked | src/App.js:53-62 | after startup the sentinel is present exactly when some currency has been clicked |
| Session.FirstClickComparesNothing | src/App.js:53-62 | the first click of a session leaves both signals plain and makes the stored form of the clicked quote the sentinel |
| Session.SentinelKeptWithoutClick | src/App.js:90-95 | messages, typing and page buttons keep the selection and the sentinel, unless the selected code is the sentinel key |
| Session.GlobalBaseline | src/App.js:53-62 | a click is compared with the stored form of the quote that the previously clicked currency had when it was clicked, even when that is a different currency |
| Session.RepeatClickShowsNoMovement | src/App.js:53-88 | clicking the same currency twice with no message between shows no movement |
| Session.SelectionKeptWithoutClick | src/App.js:53-62 | only a click changes the selected currency |
| Session.RepeatClickUnchangedQuote | src/App.js:53-95 | clicking a currency again after messages, typing or paging that left its quote unchanged shows no movement, whatever the other currencies did |
| Session.SentinelOverwrittenByFeed | src/App.js:90-95 | while a currency coded `selectedPrice` is selected, a feed message moves the sentinel to its new quote |
| Session.QuoteMovesBetweenClicks | src/App.js:23-95 | feed, click, feed with a higher bid and a lower ask, click: the bid is drawn in "green" and the ask in "red" |

## Left out

- The WebSocket lifecycle (src/App.js:16-41): opening, sending `prices`, the error and close logging, and closing on unmount. It is network I/O; feed messages enter the model as `Message` events.
- `JSON.parse` of feed messages: a message is given already decoded (`Some(table)`), or as `None` when parsing throws.
- A decoded message without a `prices` field: it would set the table to `undefined` and break the next render, which the model does not represent.
- `parseFloat` of a string: a string field is given by the value `parseFloat` yields for it (`Quotes.Text`).
- Quote objects whose keys are not exactly `bid` and `ask`: every quote is taken to carry both fields and nothing else. An object without either field would store as `{}` and skip the comparison when it has no other keys, and would be compared with NaN on both sides when it has other keys.
- The JSON text in `localStorage` is not kept as text: the store holds each quote in the form it reads back in (`Quotes.Stored`).
- Other tabs of the same origin share `localStorage`: the model gives one session sole use of it. Another tab's startup would remove this tab's sentinel, and its clicks would overwrite it, which `Session.SentinelPersists`, `Session.SentinelIffClicked` and `Session.GlobalBaseline` do not account for.
- A `localStorage.setItem` that throws (quota or security errors): every write is taken to succeed. At src/App.js:60 such a throw would end the click handler after the signals were set but before the selection changes.
- Full Unicode `toLowerCase`: only ASCII letters are lower-cased.
- The `Object.keys` rule that lists integer-like keys first in numeric order: the table's code order is taken as given.
- `Math.ceil` on a floating-point quotient: `TotalPages` uses exact integer arithmetic, which agrees for any realistic number of codes.
- `console` logging, React's batching and effect timing (each effect is applied in the step that triggers it), the JSX markup apart from the row clicks and the two buttons with their `disabled` conditions, and the unused `socket` and `previousPrices` states (src/App.js:6, 9, 37).
- App.SelectCurrency: requires the clicked code to be in the table. The handler is only reachable from a row rendered from the table's keys (`App.Enabled`, `App.EnabledIsDefined`). Called with another code, the component would throw or render a broken panel.
- Codes that name inherited members of `Object.prototype` (`constructor`, `toString`, `__proto__` and the like): the source finds these through the prototype chain in `pricesData[currency]` even when the feed did not send them. The model looks codes up in a map, so only own keys are found, and such codes are not represented.
- Session.GlobalBaseline: requires that the first clicked code is not `selectedPrice`, because that code shares its key with the sentinel (see `Session.SentinelOverwrittenByFeed`).

=== FILE: app.dfy ===
/** The `App` component: its state, the handlers that change it, and the effect
    that records the selected currency's quote. Each user action and each feed
    message is one `Step`; the effect that follows a state change is applied in
    the same step, as React runs it after the render the change causes. */
module App {
  import opened Options
  import opened Quotes
  import opened QuoteTable
  import opened Snapshots
  import opened Browser

  /** The component's state together with the part of `localStorage` it uses.
      `selected == ""` means no currency is selected. */
  datatype State = State(
    prices: Table,
    store: Store,
    selected: Code,
    bidSignal: Signal,
    askSignal: Signal,
    searchTerm: string,
    page: int)

  /** The first render: the initial `useState` values, then the mount effect that
      discards a sentinel left behind by an earlier session. */
  function Startup(saved: Store): (s: State)
    ensures s.prices.codes == [] && s.prices.quotes == map[]
    ensures Read(s.store, SentinelKey) == None
    ensures forall k :: k != SentinelKey ==> Read(s.store, k) == Read(saved, k)
    ensures s.selected == "" && s.bidSignal == Plain && s.askSignal == Plain
    ensures s.searchTerm == "" && s.page == 1
  {
    State(EmptyTable, RemoveSentinel(saved), "", Plain, Plain, "", 1)
  }

  /** `onmessage`: a message that decodes replaces the whole table with its
      `prices`; one that does not decode makes `JSON.parse` throw, and nothing changes. */
  function OnMessage(s: State, decoded: Option<Table>): (r: State)
    ensures decoded.Some? ==> r.prices == decoded.value
    ensures decoded.None? ==> r == s
    ensures r == s.(prices := r.prices)
  {
    match decoded
    case Some(t) => s.(prices := t)
    case None => s
  }

  /** `handleSearch`: store the new term and go back to the first page. */
  function Search(s: State, term: string): (r: State)
    ensures r.searchTerm == term && r.page == 1
    ensures r == s.(searchTerm := r.searchTerm, page := r.page)
  {
    s.(searchTerm := term, page := 1)
  }

  /** `handleCurrencySelection`: compare the currency's quote with the sentinel when
      there is one, then make that quote the sentinel and select the currency. */
  function SelectCurrency(s: State, c: Code): (r: State)
    requires c in s.prices.quotes
    ensures r.selected == c
    ensures Read(r.store, SentinelKey) == Some(Stored(s.prices.quotes[c]))
    ensures forall k :: k != SentinelKey ==> Read(r.store, k) == Read(s.store, k)
    ensures Read(s.store, SentinelKey).None? ==> r.bidSignal == s.bidSignal && r.askSignal == s.askSignal
    ensures Read(s.store, SentinelKey).Some? ==>
      Signals(r.bidSignal, r.askSignal) == ComparePrices(s.prices.quotes[c], Read(s.store, SentinelKey).value)
    ensures r.prices == s.prices && r.searchTerm == s.searchTerm && r.page == s.page
  {
    var current := s.prices.quotes[c];
    var compared :=
      match Read(s.store, SentinelKey)
      case Some(stored) =>
        var signals := ComparePrices(current, stored);
        s.(bidSignal := signals.bid, askSignal := signals.ask)
      case None => s;
    compared.(store := Write(s.store, SentinelKey, current), selected := c)
  }

  /** The selected currency is non-empty and has a quote in the table. */
  predicate HasSelection(s: State)
  {
    s.selected != "" && s.selected in s.prices.quotes
  }

  /** The effect on `[selectedCurrency, pricesData]`: write the selected currency's
      quote under its own code. */
  function SnapshotEffect(s: State): (r: State)
    ensures HasSelection(s) ==> Read(r.store, s.selected) == Some(Stored(s.prices.quotes[s.selected]))
    ensures forall k :: k != s.selected ==> Read(r.store, k) == Read(s.store, k)
    ensures !HasSelection(s) ==> r.store == s.store
    ensures r == s.(store := r.store)
  {
    if HasSelection(s) then s.(store := Write(s.store, s.selected, s.prices.quotes[s.selected]))
    else s
  }

  /** The render succeeds: the detail panel reads the selected currency's quote,
      which throws when a currency is selected that the table no longer holds. */
  predicate Renders(s: State)
  {
    s.selected != "" ==> s.selected in s.prices.quotes
  }

  /** A message that no longer quotes the selected currency breaks the render. */
  lemma MessageDroppingSelectionBreaksRender(s: State, t: Table)
    requires s.selected != "" && s.selected !in t.quotes
    ensures !Renders(OnMessage(s, Some(t)))
    ensures !Enabled(s, Message(Some(t)))
  {
  }

  /** The table's codes that match the search term. */
  function Filtered(s: State): seq<Code>
  {
    Filter(s.prices.codes, s.searchTerm)
  }

  /** The page count shown between the buttons. */
  function PageCount(s: State): nat
  {
    TotalPages(|Filtered(s)|)
  }

  /** The rows of the currency table: the current page of the filtered codes. */
  function Visible(s: State): seq<Code>
  {
    Paginate(Filtered(s), s.page).items
  }

  /** Without a search term there are as many pages as it takes to list every
      currency of the table, ten to a page. */
  lemma PageCountWithoutSearch(s: State)
    requires s.searchTerm == ""
    ensures PageCount(s) == TotalPages(|s.prices.quotes|)
  {
    FilterEmptyTerm(s.prices.codes);
    KeysCountQuotes(s.prices);
  }

  /** Every row shown is a currency of the table that matches the search term. */
  lemma VisibleInTable(s: State, c: Code)
    requires c in Visible(s)
    ensures c in s.prices.quotes && Matches(c, s.searchTerm)
  {
  }

  /** The "previous" button. */
  function Prev(s: State): (r: State)
    ensures r.page >= 1
    ensures r == s.(page := r.page)
  {
    s.(page := PrevPage(s.page))
  }

  /** The "next" button, bounded by the page count of the current render. */
  function Next(s: State): (r: State)
    ensures r.page <= PageCount(s)
    ensures s.page >= 0 ==> r.page >= 0
    ensures r == s.(page := r.page)
  {
    s.(page := NextPage(s.page, PageCount(s)))
  }

  /** What can happen to the page: a feed message (already decoded, or `None` when
      it does not parse), a click on a currency row, typing in the search box, or
      a click on one of the two page buttons. */
  datatype Event =
    | Message(decoded: Option<Table>)
    | Click(code: Code)
    | Type(term: string)
    | PrevButton
    | NextButton

  /** Events the page can produce: only rendered rows can be clicked, and a
      button is clickable unless its `disabled` attribute holds. A decoded message
      that no longer quotes the selected currency makes the next render throw,
      which unmounts the component and closes the socket: nothing follows it, so
      it is not an event of a running page. */
  function Enabled(s: State, e: Event): (r: bool)
    ensures e.Click? && r ==> e.code in s.prices.quotes
    ensures e.Message? && e.decoded.Some? ==> (r <==> Renders(OnMessage(s, e.decoded)))
    ensures e.PrevButton? ==> (r <==> Prev(s) != s)
    ensures e.NextButton? ==> (r <==> Next(s) != s)
    ensures e.Type? || e == Message(None) ==> r
  {
    match e
    case Message(decoded) => decoded.Some? && s.selected != "" ==> s.selected in decoded.value.quotes
    case Click(c) => c in Visible(s)
    case PrevButton => s.page != 1
    case NextButton => s.page != PageCount(s)
    case _ => true
  }

  /** The events `Step` is defined on: a click names a currency of the table. */
  predicate Defined(s: State, e: Event)
  {
    e.Click? ==> e.code in s.prices.quotes
  }

  /** Every event the page can produce is one `Step` is defined on. */
  lemma EnabledIsDefined(s: State, e: Event)
    requires Enabled(s, e)
    ensures Defined(s, e)
  {
    if e.Click? {
      VisibleInTable(s, e.code);
    }
  }

  /** One event and the effect run after it. A successful message always creates a
      new `pricesData` object, so the effect always runs; a click runs it only when
      it changes `selectedCurrency`. */
  function Step(s: State, e: Event): (r: State)
    requires Defined(s, e)
    ensures e == Message(None) ==> r == s
    ensures e.Message? && e.decoded.Some? ==>
      && r.prices == e.decoded.value
      && r == s.(prices := r.prices, store := r.store)
      && (HasSelection(r) ==> Read(r.store, r.selected) == Some(Stored(r.prices.quotes[r.selected])))
      && (forall k :: k != s.selected ==> Read(r.store, k) == Read(s.store, k))
    ensures e.Click? ==>
      && r.selected == e.code
      && Read(r.store, SentinelKey) == Some(Stored(s.prices.quotes[e.code]))
      && r.prices == s.prices && r.searchTerm == s.searchTerm && r.page == s.page
    ensures e.Click? && e.code == s.selected ==>
      forall k :: k != SentinelKey ==> Read(r.store, k) == Read(s.store, k)
    ensures e.Click? && e.code != s.selected ==>
      && (e.code != "" ==> Read(r.store, e.code) == Some(Stored(s.prices.quotes[e.code])))
      && forall k :: k != SentinelKey && k != e.code ==> Read(r.store, k) == Read(s.store, k)
    ensures e.Type? || e.PrevButton? || e.NextButton? ==>
      r.store == s.store && r.prices == s.prices && r.selected == s.selected
      && r.bidSignal == s.bidSignal && r.askSignal == s.askSignal
  {
    match e
    case Message(decoded) =>
      if decoded.Some? then SnapshotEffect(OnMessage(s, decoded)) else s
    case Click(c) =>
      var r := SelectCurrency(s, c);
      if c != s.selected then SnapshotEffect(r) else r
    case Type(term) => Search(s, term)
    case PrevButton => Prev(s)
    case NextButton => Next(s)
  }
}

=== FILE: browser.dfy ===
/** The currency list: case-insensitive search over the table's codes, fixed-size
    pages of the result, and the previous/next page controls. */
module Browser {

  // ---------------------------------------------------------------------------
  // Lower-casing and substring search
  // ---------------------------------------------------------------------------

  /** `toLowerCase` on one character, restricted to ASCII letters. */
  function LowerChar(ch: char): char
  {
    if 'A' <= ch <= 'Z' then (ch as int + 32) as char else ch
  }

  /** `toLowerCase` on a string, character by character. */
  function Lower(s: string): (r: string)
    ensures |r| == |s|
    ensures forall i :: 0 <= i < |r| ==> !('A' <= r[i] <= 'Z')
    ensures forall i :: 0 <= i < |r| && !('A' <= s[i] <= 'Z') ==> r[i] == s[i]
    ensures forall i :: 0 <= i < |r| && 'A' <= s[i] <= 'Z' ==> r[i] as int == s[i] as int + 32
  {
    seq(|s|, i requires 0 <= i < |s| => LowerChar(s[i]))
  }

  /** Lower-casing twice is lower-casing once. */
  lemma LowerIdempotent(s: string)
    ensures Lower(Lower(s)) == Lower(s)
  {
  }

  /** `t` occurs in `s` starting at index `i`. */
  ghost predicate OccursAt(t: string, s: string, i: int)
  {
    0 <= i && i + |t| <= |s| && s[i..i + |t|] == t
  }

  /** `t` occurs in `s` at some position. */
  ghost predicate IsSubstring(t: string, s: string)
  {
    exists i :: OccursAt(t, s, i)
  }

  /** `s.includes(t)`: tries every starting position from the left. */
  function Includes(s: string, t: string): (b: bool)
    ensures |t| == 0 ==> b
    ensures b ==> |t| <= |s|
    decreases |s|
  {
    if |t| > |s| then false
    else if s[..|t|] == t then true
    else Includes(s[1..], t)
  }

  /** `Includes` answers exactly whether `t` occurs somewhere in `s`. */
  lemma {:induction false} IncludesIsSubstring(s: string, t: string)
    ensures Includes(s, t) <==> IsSubstring(t, s)
    decreases |s|
  {
    if |t| > |s| {
    } else if s[..|t|] == t {
      assert OccursAt(t, s, 0);
    } else {
      IncludesIsSubstring(s[1..], t);
      if IsSubstring(t, s[1..]) {
        var i :| OccursAt(t, s[1..], i);
        assert s[i + 1..i + 1 + |t|] == s[1..][i..i + |t|];
        assert OccursAt(t, s, i + 1);
      }
      if IsSubstring(t, s) {
        var i :| OccursAt(t, s, i);
        assert i != 0;
        assert 0 <= i - 1 && i - 1 + |t| <= |s[1..]|;
        assert s[1..][i - 1..i - 1 + |t|] == s[i..i + |t|];
        assert OccursAt(t, s[1..], i - 1);
      }
    }
  }

  /** The empty string occurs in every string. */
  lemma IncludesEmpty(s: string)
    ensures Includes(s, "")
  {
  }

  /** The search rule: the lower-cased code contains the lower-cased term. */
  predicate Matches(code: string, term: string)
  {
    Includes(Lower(code), Lower(term))
  }

  // ---------------------------------------------------------------------------
  // Filtering
  // ---------------------------------------------------------------------------

  /** `a` can be obtained from `b` by deleting elements, keeping the order. */
  predicate IsSubsequence<T(==)>(a: seq<T>, b: seq<T>)
    decreases |b|
  {
    if |a| == 0 then true
    else if |b| == 0 then false
    else if a[0] == b[0] then IsSubsequence(a[1..], b[1..])
    else IsSubsequence(a, b[1..])
  }

  /** The codes that match the search term, in their original order. */
  function Filter(codes: seq<string>, term: string): (r: seq<string>)
    ensures IsSubsequence(r, codes)
    ensures forall c :: c in r <==> c in codes && Matches(c, term)
  {
    if |codes| == 0 then []
    else if Matches(codes[0], term) then [codes[0]] + Filter(codes[1..], term)
    else Filter(codes[1..], term)
  }

  /** Filtering keeps every matching code as often as it occurs and drops every other. */
  lemma {:induction false} FilterCounts(codes: seq<string>, term: string, c: string)
    ensures multiset(Filter(codes, term))[c] == if Matches(c, term) then multiset(codes)[c] else 0
  {
    if |codes| > 0 {
      FilterCounts(codes[1..], term, c);
      assert codes == [codes[0]] + codes[1..];
    }
  }

  /** An empty search term keeps the whole list. */
  lemma {:induction false} FilterEmptyTerm(codes: seq<string>)
    ensures Filter(codes, "") == codes
  {
    if |codes| > 0 {
      IncludesEmpty(Lower(codes[0]));
      FilterEmptyTerm(codes[1..]);
    }
  }

  /** Searching is blind to the case of the term. */
  lemma {:induction false} FilterIgnoresTermCase(codes: seq<string>, term: string)
    ensures Filter(codes, Lower(term)) == Filter(codes, term)
  {
    LowerIdempotent(term);
    if |codes| > 0 {
      FilterIgnoresTermCase(codes[1..], term);
    }
  }

  /** A lower-case term finds a code written in capitals. */
  lemma LowerTermFindsUpperCode()
    ensures Matches("USD/EUR", "usd")
  {
    assert Lower("USD/EUR")[..3] == "usd";
  }

  // ---------------------------------------------------------------------------
  // Pagination
  // ---------------------------------------------------------------------------

  /** Codes shown per page. */
  const PageSize: nat := 10

  function Min(a: int, b: int): int { if a <= b then a else b }

  function Max(a: int, b: int): int { if a >= b then a else b }

  /** `Math.ceil(n / PageSize)`: the fewest pages that hold `n` codes. */
  function TotalPages(n: nat): (r: nat)
    ensures r * PageSize >= n
    ensures r * PageSize < n + PageSize
  {
    (n + PageSize - 1) / PageSize
  }

  /** `Array.prototype.slice(start, end)` as the ECMAScript specification defines it:
      a negative bound counts from the end, every bound is clamped to the array. */
  function JsSlice<T>(s: seq<T>, start: int, end: int): (r: seq<T>)
    ensures forall x :: x in r ==> x in s
    ensures 0 <= start <= end ==> r == s[Min(start, |s|)..Min(end, |s|)]
    ensures end == 0 ==> r == []
  {
    var from := if start < 0 then Max(|s| + start, 0) else Min(start, |s|);
    var to := if end < 0 then Max(|s| + end, 0) else Min(end, |s|);
    if from < to then s[from..to] else []
  }

  /** One page of the filtered list together with the page count. */
  datatype Page<T> = Page(items: seq<T>, totalPages: nat)

  /** Page `page` (1-based) of `list`: the slice from `(page - 1) * PageSize` to
      `page * PageSize`, and `TotalPages` of the list's length. */
  function Paginate<T>(list: seq<T>, page: int): (r: Page<T>)
    ensures r.totalPages * PageSize >= |list| > (r.totalPages - 1) * PageSize
    ensures forall x :: x in r.items ==> x in list
    ensures 1 <= page ==> r.items == list[Min((page - 1) * PageSize, |list|)..Min(page * PageSize, |list|)]
    ensures 0 <= page ==> |r.items| <= PageSize
    ensures page == 0 ==> r.items == []
  {
    var startIndex := (page - 1) * PageSize;
    var endIndex := page * PageSize;
    Page(JsSlice(list, startIndex, endIndex), TotalPages(|list|))
  }

  /** A page past the last one is empty: the page number is not clamped. */
  lemma PageBeyondLastIsEmpty<T>(list: seq<T>, page: int)
    requires page > TotalPages(|list|)
    ensures Paginate(list, page).items == []
  {
  }

  /** Pages 1 to `k`, one after the other. */
  function FirstPages<T>(list: seq<T>, k: nat): seq<T>
  {
    if k == 0 then [] else FirstPages(list, k - 1) + Paginate(list, k).items
  }

  /** The first `k` pages are the first `k * PageSize` codes. */
  lemma {:induction false} FirstPagesArePrefix<T>(list: seq<T>, k: nat)
    ensures FirstPages(list, k) == list[..Min(k * PageSize, |list|)]
  {
    if k > 0 {
      FirstPagesArePrefix(list, k - 1);
      var a := Min((k - 1) * PageSize, |list|);
      var b := Min(k * PageSize, |list|);
      assert list[..a] + list[a..b] == list[..b];
    }
  }

  /** All pages together are the whole list, in order. */
  lemma {:induction false} PagesReassemble<T>(list: seq<T>)
    ensures FirstPages(list, TotalPages(|list|)) == list
  {
    FirstPagesArePrefix(list, TotalPages(|list|));
  }

  /** The code at index `i` is shown on page `i / PageSize + 1`, at row `i % PageSize`. */
  lemma ItemOnItsPage<T>(list: seq<T>, i: nat)
    requires i < |list|
    ensures 1 <= i / PageSize + 1 <= TotalPages(|list|)
    ensures var items := Paginate(list, i / PageSize + 1).items;
      i % PageSize < |items| && items[i % PageSize] == list[i]
  {
  }

  // ---------------------------------------------------------------------------
  // Page controls
  // ---------------------------------------------------------------------------

  /** The "previous" button: one page back, never below page 1. */
  function PrevPage(page: int): (r: int)
    ensures r >= 1
    ensures r <= page || page < 1
    ensures page <= 1 ==> r == 1
    ensures page > 1 ==> r == page - 1
  {
    Max(page - 1, 1)
  }

  /** The "next" button: one page on, never above the page count. */
  function NextPage(page: int, totalPages: nat): (r: int)
    ensures r <= totalPages
    ensures r <= page + 1
    ensures totalPages == 0 && page >= -1 ==> r == 0
    ensures page >= totalPages ==> r == totalPages
    ensures page < totalPages ==> r == page + 1
  {
    Min(page + 1, totalPages)
  }

  /** Inside the page range, the two buttons undo each other. */
  lemma PrevNextInverse(page: int, totalPages: nat)
    ensures 1 <= page < totalPages ==> PrevPage(NextPage(page, totalPages)) == page
    ensures 1 < page <= totalPages ==> NextPage(PrevPage(page), totalPages) == page
  {
  }

  /** Each button is disabled exactly when clicking it would leave the page as it is. */
  lemma DisabledExactlyWhenNoOp(page: int, totalPages: nat)
    ensures PrevPage(page) == page <==> page == 1
    ensures NextPage(page, totalPages) == page <==> page == totalPages
  {
  }
}

=== FILE: options.dfy ===
/** The outcome of decoding something that may be malformed. */
module Options {

  /** `Some(v)` when decoding produced `v`; `None` when it failed. */
  datatype Option<+T> = None | Some(value: T)
}

=== FILE: quotes.dfy ===
/** Quotes as the price feed delivers them, after `parseFloat`, and the rule that
    colours a quote by comparing it with a stored one. */
module Quotes {

  /** A price field after `parseFloat`: a finite decimal, an infinity, or NaN
      (what `parseFloat` yields for a field that does not start with a number). */
  datatype Num = Finite(value: real) | PosInf | NegInf | NaN

  /** A price field as JSON carries it: a number (a literal too large for a double
      reads as an infinity), a string, which is kept as the value `parseFloat`
      gives for it, or `null`. */
  datatype Field = Number(n: Num) | Text(parsed: Num) | Null

  /** `parseFloat` of a field; `parseFloat(null)` reads the text "null", so NaN. */
  function Value(f: Field): (r: Num)
    ensures f.Null? ==> forall x :: !Less(r, x) && !Less(x, r)
    ensures f.Number? ==> r == f.n
    ensures f.Text? ==> r == f.parsed
  {
    match f
    case Number(n) => n
    case Text(p) => p
    case Null => NaN
  }

  /** `JSON.parse(JSON.stringify(f))`: strings and finite numbers come back as they
      were, while `JSON.stringify` writes a number that is not finite as `null`. */
  function Reserialize(f: Field): (r: Field)
    ensures Value(r) == Value(f) <==> !(f.Number? && (f.n == PosInf || f.n == NegInf))
    ensures r.Number? ==> r.n.Finite?
    ensures f.Number? && !f.n.Finite? ==> r == Null && Value(r) == NaN
  {
    match f
    case Number(n) => if n.Finite? then f else Null
    case _ => f
  }

  /** The quote of one currency. */
  datatype Quote = Quote(bid: Field, ask: Field)

  /** A quote as it reads back from storage: the fields of `JSON.parse(JSON.stringify(q))`. */
  function Stored(q: Quote): Quote
  {
    Quote(Reserialize(q.bid), Reserialize(q.ask))
  }


  /** JavaScript's `<` on two numbers: false whenever either side is NaN. */
  function Less(a: Num, b: Num): (r: bool)
    ensures r ==> a != NaN && b != NaN && a != b
    ensures a.Finite? && b.Finite? ==> (r <==> a.value < b.value)
    ensures a == NegInf ==> (r <==> b.Finite? || b == PosInf)
    ensures b == PosInf ==> (r <==> a.Finite? || a == NegInf)
    ensures a == PosInf || b == NegInf ==> !r
  {
    match (a, b)
    case (Finite(x), Finite(y)) => x < y
    case (NegInf, Finite(_)) => true
    case (NegInf, PosInf) => true
    case (Finite(_), PosInf) => true
    case _ => false
  }

  /** On numbers other than NaN, `<` is a strict total order: asymmetric,
      transitive, and any two different numbers are ordered one way or the other. */
  lemma LessIsStrictOrder(a: Num, b: Num, c: Num)
    ensures Less(a, b) ==> !Less(b, a)
    ensures Less(a, b) && Less(b, c) ==> Less(a, c)
    ensures a != NaN && b != NaN && a != b ==> Less(a, b) || Less(b, a)
  {
  }

  /** The colour a price line is drawn in: higher, lower, or the default colour. */
  datatype Signal = Green | Red | Plain

  /** The value of the CSS `color` property for a signal. */
  function Css(s: Signal): (r: string)
    ensures r == "green" <==> s == Green
    ensures r == "red" <==> s == Red
    ensures r == "" <==> s == Plain
  {
    match s
    case Green => "green"
    case Red => "red"
    case Plain => ""
  }

  /** One side (bid or ask) of the comparison: green when the current price is
      above the stored one, red when below, the default colour otherwise. */
  function CompareField(current: Num, stored: Num): (r: Signal)
    ensures r == Green <==> Less(stored, current)
    ensures r == Red <==> Less(current, stored)
    ensures r == Plain <==> current == NaN || stored == NaN || current == stored
  {
    if Less(stored, current) then Green
    else if Less(current, stored) then Red
    else Plain
  }

  /** The pair of signals shown for the selected currency. */
  datatype Signals = Signals(bid: Signal, ask: Signal)

  /** Compares the parsed bid with the parsed bid and the parsed ask with the
      parsed ask, each on its own. */
  function ComparePrices(current: Quote, stored: Quote): (r: Signals)
    ensures r.bid == Green <==> Less(Value(stored.bid), Value(current.bid))
    ensures r.bid == Red <==> Less(Value(current.bid), Value(stored.bid))
    ensures r.ask == Green <==> Less(Value(stored.ask), Value(current.ask))
    ensures r.ask == Red <==> Less(Value(current.ask), Value(stored.ask))
  {
    Signals(CompareField(Value(current.bid), Value(stored.bid)), CompareField(Value(current.ask), Value(stored.ask)))
  }

  /** The colour shown is "green" exactly when the current price is above the
      stored one and "red" exactly when it is below. */
  lemma ColorOfComparison(current: Num, stored: Num)
    ensures Css(CompareField(current, stored)) == "green" <==> Less(stored, current)
    ensures Css(CompareField(current, stored)) == "red" <==> Less(current, stored)
    ensures Css(CompareField(current, stored)) == "" <==> !Less(stored, current) && !Less(current, stored)
  {
  }

  /** Swapping the two prices swaps green and red. */
  lemma CompareFieldSwap(a: Num, b: Num)
    ensures CompareField(a, b) == Green <==> CompareField(b, a) == Red
    ensures CompareField(a, b) == Plain <==> CompareField(b, a) == Plain
  {
  }

  /** Comparing a quote with itself, or with its own stored form, shows no
      movement, NaN fields included. */
  lemma CompareSameQuote(q: Quote)
    ensures ComparePrices(q, q) == Signals(Plain, Plain)
    ensures ComparePrices(q, Stored(q)) == Signals(Plain, Plain)
  {
  }

  /** A numeric bid that overflowed to an infinity is stored as `null`, so a later
      comparison with it shows no movement even against a finite bid. */
  lemma OverflowedBidComparesAsNaN(huge: Quote, other: Quote)
    requires huge.bid == Number(PosInf) && Value(other.bid).Finite?
    ensures ComparePrices(other, Stored(huge)).bid == Plain
    ensures ComparePrices(other, huge).bid == Red
  {
  }

  /** The bid signal does not depend on the asks, nor the ask signal on the bids. */
  lemma CompareSidesIndependent(c1: Quote, s1: Quote, c2: Quote, s2: Quote)
    ensures c1.bid == c2.bid && s1.bid == s2.bid ==> ComparePrices(c1, s1).bid == ComparePrices(c2, s2).bid
    ensures c1.ask == c2.ask && s1.ask == s2.ask ==> ComparePrices(c1, s1).ask == ComparePrices(c2, s2).ask
  {
  }
}

=== FILE: session.dfy ===
/** Sequences of events from the first render on, and what holds along them. */
module Session {
  import opened Options
  import opened Quotes
  import opened QuoteTable
  import opened Snapshots
  import opened Browser
  import opened App

  /** Every event of `events` can be produced on the page it arrives at. */
  predicate Admissible(s: State, events: seq<Event>)
    decreases |events|
  {
    |events| == 0 ||
    (Enabled(s, events[0]) && (EnabledIsDefined(s, events[0]); Admissible(Step(s, events[0]), events[1..])))
  }

  /** Along every run the render succeeds: no state is reached in which the
      selected currency is missing from the table. */
  lemma {:induction false} AlwaysRenders(s: State, events: seq<Event>)
    requires Admissible(s, events) && Renders(s)
    ensures Renders(Run(s, events))
    decreases |events|
  {
    if |events| > 0 {
      EnabledIsDefined(s, events[0]);
      AlwaysRenders(Step(s, events[0]), events[1..]);
    }
  }

  /** The state after the events, one after the other. */
  function Run(s: State, events: seq<Event>): State
    requires Admissible(s, events)
    decreases |events|
  {
    if |events| == 0 then s else Run(Step(s, events[0]), events[1..])
  }

  predicate IsClick(e: Event) { e.Click? }

  /** A feed message that decoded. */
  predicate IsFeed(e: Event) { e.Message? && e.decoded.Some? }

  // ---------------------------------------------------------------------------
  // The page number
  // ---------------------------------------------------------------------------

  /** The page number never goes negative; it is 0 only after "next" with no pages. */
  lemma {:induction false} PageNeverNegative(s: State, events: seq<Event>)
    requires Admissible(s, events)
    requires s.page >= 0
    ensures Run(s, events).page >= 0
    decreases |events|
  {
    if |events| > 0 {
      PageNeverNegative(Step(s, events[0]), events[1..]);
    }
  }

  // ---------------------------------------------------------------------------
  // Replace, not merge
  // ---------------------------------------------------------------------------

  /** Without a decoded feed message the table stays as it is. */
  lemma {:induction false} TableKeptWithoutFeed(s: State, events: seq<Event>)
    requires Admissible(s, events)
    requires forall j | 0 <= j < |events| :: !IsFeed(events[j])
    ensures Run(s, events).prices == s.prices
    decreases |events|
  {
    if |events| > 0 {
      TableKeptWithoutFeed(Step(s, events[0]), events[1..]);
    }
  }

  /** The table is exactly the `prices` of the last decoded message: nothing of an
      earlier message survives unless that message is sent again. */
  lemma {:induction false} LastFeedWins(s: State, events: seq<Event>, k: nat, t: Table)
    requires Admissible(s, events)
    requires k < |events| && events[k] == Message(Some(t))
    requires forall j | k < j < |events| :: !IsFeed(events[j])
    ensures Run(s, events).prices == t
    decreases k
  {
    if k == 0 {
      TableKeptWithoutFeed(Step(s, events[0]), events[1..]);
    } else {
      LastFeedWins(Step(s, events[0]), events[1..], k - 1, t);
    }
  }

  // ---------------------------------------------------------------------------
  // The per-currency snapshot
  // ---------------------------------------------------------------------------

  /** The selected currency's own slot holds its current quote. */
  predicate SnapshotCurrent(s: State)
  {
    HasSelection(s) ==> Read(s.store, s.selected) == Some(Stored(s.prices.quotes[s.selected]))
  }

  /** While the snapshot is current, running the effect again changes nothing; so
      React skipping it when neither dependency changed is harmless. */
  lemma EffectIdleWhenCurrent(s: State)
    requires SnapshotCurrent(s)
    ensures SnapshotEffect(s) == s
  {
  }

  /** Every step keeps the selected currency's slot current. */
  lemma StepKeepsSnapshotCurrent(s: State, e: Event)
    requires Defined(s, e) && SnapshotCurrent(s)
    ensures SnapshotCurrent(Step(s, e))
  {
  }

  /** From the first render on, the selected currency's slot holds its current quote. */
  lemma {:induction false} SnapshotAlwaysCurrent(s: State, events: seq<Event>)
    requires Admissible(s, events)
    requires SnapshotCurrent(s)
    ensures SnapshotCurrent(Run(s, events))
    decreases |events|
  {
    if |events| > 0 {
      EnabledIsDefined(s, events[0]);
      StepKeepsSnapshotCurrent(s, events[0]);
      SnapshotAlwaysCurrent(Step(s, events[0]), events[1..]);
    }
  }

  // ---------------------------------------------------------------------------
  // The sentinel and the comparison baseline
  // ---------------------------------------------------------------------------

  /** Nothing selected yet in this session. */
  predicate Fresh(s: State)
  {
    s.selected == "" && Read(s.store, SentinelKey) == None && s.bidSignal == Plain && s.askSignal == Plain
  }

  /** Until the first click the session stays fresh. */
  lemma {:induction false} FreshUntilClick(s: State, events: seq<Event>)
    requires Admissible(s, events) && Fresh(s)
    requires forall j | 0 <= j < |events| :: !IsClick(events[j])
    ensures Fresh(Run(s, events))
    decreases |events|
  {
    if |events| > 0 {
      FreshUntilClick(Step(s, events[0]), events[1..]);
    }
  }

  /** Once written, the sentinel is never removed within the session. */
  lemma {:induction false} SentinelPersists(s: State, events: seq<Event>)
    requires Admissible(s, events)
    requires Read(s.store, SentinelKey).Some?
    ensures Read(Run(s, events).store, SentinelKey).Some?
    decreases |events|
  {
    if |events| > 0 {
      SentinelPersists(Step(s, events[0]), events[1..]);
    }
  }

  /** After startup the sentinel is present exactly when a currency has been clicked,
      whatever an earlier session left in the store. */
  lemma {:induction false} SentinelIffClicked(saved: Store, events: seq<Event>)
    requires Admissible(Startup(saved), events)
    ensures Read(Run(Startup(saved), events).store, SentinelKey).Some? <==>
      exists j | 0 <= j < |events| :: IsClick(events[j])
  {
    SentinelIffClickedFrom(Startup(saved), events);
  }

  lemma {:induction false} SentinelIffClickedFrom(s: State, events: seq<Event>)
    requires Admissible(s, events) && Fresh(s)
    ensures Read(Run(s, events).store, SentinelKey).Some? <==>
      exists j | 0 <= j < |events| :: IsClick(events[j])
    decreases |events|
  {
    if |events| > 0 {
      var next := Step(s, events[0]);
      if IsClick(events[0]) {
        SentinelPersists(next, events[1..]);
      } else {
        SentinelIffClickedFrom(next, events[1..]);
        if exists j | 0 <= j < |events| :: IsClick(events[j]) {
          var j :| 0 <= j < |events| && IsClick(events[j]);
          assert IsClick(events[1..][j - 1]);
        }
      }
    }
  }

  /** The first click of a session compares nothing: both signals stay plain, and
      the clicked currency's quote becomes the sentinel. */
  lemma {:induction false} FirstClickComparesNothing(saved: Store, events: seq<Event>, c: Code)
    requires Admissible(Startup(saved), events)
    requires forall j | 0 <= j < |events| :: !IsClick(events[j])
    requires c in Run(Startup(saved), events).prices.quotes
    ensures var before := Run(Startup(saved), events);
      var after := Step(before, Click(c));
      && after.bidSignal == Plain && after.askSignal == Plain
      && Read(after.store, SentinelKey) == Some(Stored(before.prices.quotes[c]))
  {
    FreshUntilClick(Startup(saved), events);
  }

  /** Messages, typing and page buttons leave the sentinel alone unless the selected
      currency's own code is the sentinel key. */
  lemma {:induction false} SentinelKeptWithoutClick(s: State, events: seq<Event>)
    requires Admissible(s, events)
    requires forall j | 0 <= j < |events| :: !IsClick(events[j])
    requires s.selected != SentinelKey
    ensures Run(s, events).selected == s.selected
    ensures Read(Run(s, events).store, SentinelKey) == Read(s.store, SentinelKey)
    decreases |events|
  {
    if |events| > 0 {
      SentinelKeptWithoutClick(Step(s, events[0]), events[1..]);
    }
  }

  /** The baseline is global: a click on `c2` is compared with the quote that `c1`
      had when it was clicked last, even when `c1` is another currency. */
  lemma {:induction false} GlobalBaseline(s: State, c1: Code, between: seq<Event>, c2: Code)
    requires c1 in s.prices.quotes && c1 != SentinelKey
    requires Admissible(Step(s, Click(c1)), between)
    requires forall j | 0 <= j < |between| :: !IsClick(between[j])
    requires c2 in Run(Step(s, Click(c1)), between).prices.quotes
    ensures var before := Run(Step(s, Click(c1)), between);
      var after := Step(before, Click(c2));
      Signals(after.bidSignal, after.askSignal) == ComparePrices(before.prices.quotes[c2], Stored(s.prices.quotes[c1]))
  {
    var clicked := Step(s, Click(c1));
    assert clicked.selected == c1;
    assert Read(clicked.store, SentinelKey) == Some(Stored(s.prices.quotes[c1]));
    SentinelKeptWithoutClick(clicked, between);
  }

  /** Clicking the same currency twice in a row, with no message between, shows no movement. */
  lemma RepeatClickShowsNoMovement(s: State, c: Code)
    requires Enabled(s, Click(c))
    ensures Enabled(Step(s, Click(c)), Click(c))
    ensures var after := Step(Step(s, Click(c)), Click(c));
      after.bidSignal == Plain && after.askSignal == Plain
  {
    EnabledIsDefined(s, Click(c));
    CompareSameQuote(s.prices.quotes[c]);
  }

  /** Without clicks the selection never changes. */
  lemma {:induction false} SelectionKeptWithoutClick(s: State, events: seq<Event>)
    requires Admissible(s, events)
    requires forall j | 0 <= j < |events| :: !IsClick(events[j])
    ensures Run(s, events).selected == s.selected
    decreases |events|
  {
    if |events| > 0 {
      assert !IsClick(events[0]);
      SelectionKeptWithoutClick(Step(s, events[0]), events[1..]);
    }
  }

  /** Clicking a currency again after messages, typing or paging that left its
      quote as it was shows no movement, whatever else the feed changed. */
  lemma {:induction false} RepeatClickUnchangedQuote(s: State, c: Code, between: seq<Event>)
    requires c in s.prices.quotes
    requires Admissible(Step(s, Click(c)), between)
    requires forall j | 0 <= j < |between| :: !IsClick(between[j])
    requires c in Run(Step(s, Click(c)), between).prices.quotes
    requires Run(Step(s, Click(c)), between).prices.quotes[c] == s.prices.quotes[c]
    ensures var after := Step(Run(Step(s, Click(c)), between), Click(c));
      after.bidSignal == Plain && after.askSignal == Plain
  {
    var clicked := Step(s, Click(c));
    var before := Run(clicked, between);
    if c != SentinelKey {
      GlobalBaseline(s, c, between, c);
      CompareSameQuote(s.prices.quotes[c]);
    } else {
      assert clicked.selected == c;
      assert SnapshotCurrent(clicked);
      SnapshotAlwaysCurrent(clicked, between);
      SelectionKeptWithoutClick(clicked, between);
      assert Read(before.store, SentinelKey) == Some(Stored(before.prices.quotes[c]));
      CompareSameQuote(before.prices.quotes[c]);
    }
  }

  /** The per-currency slots share the key space with the sentinel: while a
      currency whose code is the sentinel key is selected, every feed message
      moves the comparison baseline to that currency's new quote. */
  lemma SentinelOverwrittenByFeed(s: State, t: Table)
    requires s.selected == SentinelKey && SentinelKey in t.quotes
    ensures Read(Step(s, Message(Some(t))).store, SentinelKey) == Some(Stored(t.quotes[SentinelKey]))
  {
  }

  // ---------------------------------------------------------------------------
  // A quote that moves between two clicks
  // ---------------------------------------------------------------------------

  const UsdEur: Code := "USD/EUR"

  const FirstFeed: Table := TableRep([UsdEur], map[UsdEur := Quote(Text(Finite(1.10)), Text(Finite(1.12)))])

  const SecondFeed: Table := TableRep([UsdEur], map[UsdEur := Quote(Text(Finite(1.15)), Text(Finite(1.09)))])

  /** One currency is quoted, clicked, quoted again with a higher bid and a lower
      ask, and clicked again: the first click shows nothing, the second shows the
      bid in "green" and the ask in "red". */
  lemma QuoteMovesBetweenClicks(saved: Store)
    ensures var events := [Message(Some(FirstFeed)), Click(UsdEur), Message(Some(SecondFeed)), Click(UsdEur)];
      && Admissible(Startup(saved), events)
      && var s := Run(Startup(saved), events);
      Css(s.bidSignal) == "green" && Css(s.askSignal) == "red"
  {
    FilterEmptyTerm([UsdEur]);
    var s0 := Startup(saved);
    var s1 := Step(s0, Message(Some(FirstFeed)));
    assert Visible(s1) == [UsdEur];
    var s2 := Step(s1, Click(UsdEur));
    assert s2.bidSignal == Plain;
    var s3 := Step(s2, Message(Some(SecondFeed)));
    assert Visible(s3) == [UsdEur];
    var s4 := Step(s3, Click(UsdEur));
    assert s4.bidSignal == Green && s4.askSignal == Red;
    var events := [Message(Some(FirstFeed)), Click(UsdEur), Message(Some(SecondFeed)), Click(UsdEur)];
    var e3 := [Click(UsdEur)];
    var e2 := [Message(Some(SecondFeed))] + e3;
    var e1 := [Click(UsdEur)] + e2;
    assert events == [Message(Some(FirstFeed))] + e1;
    assert Run(s4, []) == s4;
    assert Run(s3, e3) == s4;
    assert Run(s2, e2) == s4;
    assert Run(s1, e1) == s4;
  }
}

=== FILE: snapshots.dfy ===
/** The browser's `localStorage` as the component uses it: one slot under a fixed
    sentinel key for the last selected quote, and one slot per currency code, all
    in the same key space. */
module Snapshots {
  import opened Options
  import opened Quotes

  /** Stored quotes by key, each held in the form it reads back in: a stored value
      is the JSON text of a quote, so `Stored` has been applied to it. */
  type Store = map<string, Quote>

  /** The key of the last selected quote. */
  const SentinelKey: string := "selectedPrice"

  /** `JSON.parse(localStorage.getItem(key))`: the quote under `key`, if any. */
  function Read(st: Store, key: string): (r: Option<Quote>)
    ensures r.Some? <==> key in st
    ensures r.Some? ==> r.value == st[key]
  {
    if key in st then Some(st[key]) else None
  }

  /** `localStorage.setItem(key, JSON.stringify(q))`. */
  function Write(st: Store, key: string, q: Quote): (r: Store)
    ensures r.Keys == st.Keys + {key}
  {
    st[key := Stored(q)]
  }

  /** `localStorage.removeItem(SentinelKey)`. */
  function RemoveSentinel(st: Store): (r: Store)
    ensures r.Keys == st.Keys - {SentinelKey}
  {
    st - {SentinelKey}
  }

  /** A write reads back as the quote's stored form, and leaves every other key as it was. */
  lemma ReadAfterWrite(st: Store, key: string, q: Quote, other: string)
    ensures Read(Write(st, key, q), key) == Some(Stored(q))
    ensures other != key ==> Read(Write(st, key, q), other) == Read(st, other)
  {
  }

  /** After the removal the sentinel reads as absent; every other key is untouched. */
  lemma ReadAfterRemove(st: Store, other: string)
    ensures Read(RemoveSentinel(st), SentinelKey) == None
    ensures other != SentinelKey ==> Read(RemoveSentinel(st), other) == Read(st, other)
  {
  }
}

=== FILE: table.dfy ===
/** The quote table: the `prices` object of the latest feed message. */
module QuoteTable {
  import opened Quotes

  /** A currency code as the feed spells it; case matters. */
  type Code = string

  /** The codes in the order `Object.keys` lists them, and the quote under each. */
  datatype TableRep = TableRep(codes: seq<Code>, quotes: map<Code, Quote>)
  {
    /** A decoded object lists each of its keys once, and only its keys. */
    predicate Valid()
    {
      && (forall i, j | 0 <= i < j < |codes| :: codes[i] != codes[j])
      && quotes.Keys == set c | c in codes
    }
  }

  /** A decoded `prices` object. */
  type Table = t: TableRep | t.Valid() witness TableRep([], map[])

  /** The table before the first feed message: `{}`. */
  const EmptyTable: Table := TableRep([], map[])

  /** `Object.keys` lists every code once, so it has as many entries as the table has quotes. */
  lemma {:induction false} KeysCountQuotes(t: Table)
    ensures |t.codes| == |t.quotes|
  {
    DistinctCount(t.codes);
  }

  /** A sequence without repetitions has as many elements as its set of elements. */
  lemma {:induction false} DistinctCount(codes: seq<Code>)
    requires forall i, j | 0 <= i < j < |codes| :: codes[i] != codes[j]
    ensures |set c | c in codes| == |codes|
  {
    if |codes| > 0 {
      var rest := codes[1..];
      DistinctCount(rest);
      assert (set c | c in codes) == (set c | c in rest) + {codes[0]};
      assert codes[0] !in rest;
    }
  }
}
